=== FILE: README.md ===
# Jolteon command core, modelled in Dafny

Jolteon is a Discord bot. Each guild (server) has its own command prefix. The bot stores text
"tags" (factoids) per guild, and the `tag` command replies with one or more of them joined
together. This project models the decision logic of the bot's command handlers in `main.py`.
All Discord and MySQL calls are replaced by plain values:

- **Prefix resolution and the `prefix` command** (`prefixes.dfy`, module `Prefixes`).
  - The `prefixes` table is a `map<GuildId, string>`.
  - Resolution returns the bare default `";"` in a direct message.
  - In a guild it returns the stored prefix (or `";"`), followed by the bot's mention and its
    `@!` nickname form.
  - `prefix` is an upsert.
- **The tag table, `tagadd` and `tagdelete`** (`tag_store.dfy`, module `TagStore`).
  - The `tags` table is a map keyed by `(guild, lower-cased name)`.
  - Inside its handler body, `tagadd` first rejects content longer than 1900 characters, then
    rejects names shaped like mentions, and otherwise upserts. The permission and guild-only
    gates that run before the body are left out (see "## Left out").
  - `tagdelete` removes the key whether or not it exists.
- **The `tag` command** (`tag_command.dfy`, module `TagCommand`). `Aggregate` takes the guild,
  the raw tokens, the role-mention flag and the user mentions, and returns the outcome. It also
  returns the names it looked up, in order, so that "no lookup happens before the guards" and
  "nothing is looked up after the first miss" can be stated. The steps run in this order:
  1. the mass-ping guard;
  2. the role-mention guard;
  3. removal of mention tokens;
  4. lower-cased lookups in input order, stopping at the first miss;
  5. joining with `"\n\n"` and the `>= 4096` rejection;
  6. the "specify a tag" case.
- **Retraction** (`retraction.dfy`, module `Retraction`).
  - The reaction filter accepts only the invoking author reacting with exactly `🗑️`
    (U+1F5D1 U+FE0F).
  - A small watcher state machine is driven by the reactions that arrive, in order. It deletes
    the reply at the first reaction that passes the filter.
- **Traceback chunking** (`error_report.dfy`, module `ErrorReport`).
  - The error text is cut into 1988-character slices with the same comprehension as the source.
  - Each slice is wrapped in a code block, followed by the command-name line.
- **Shared types** (`common.dfy`, module `Common`): `Option` and `GuildId`.
- **Shared text helpers** (`text.dfy`, module `Text`).
  - ASCII lower-casing.
  - Python's `in` on strings, `str.join` and `str.replace` for one character.
  - The mention-token test `re.match(r'<@(!?)([0-9]*)>', s)` as `IsMentionToken`: `<@`, an
    optional `!`, zero or more digits, then `>`. Anything may follow, because `re.match` anchors
    only at the start. Like the regex, it accepts `"<@>"`.

Choices of representation:

- `str.lower` is modelled as ASCII lower-casing (`Text.Lower`). Python folds all Unicode letters;
  only A–Z are folded here.
- Lengths are counted in Unicode scalar values (Dafny's `char`). Python's `len` counts the same.
- Guild, user and message ids are `nat`.
- The bot's mention text, the list of user mentions and the role-mention flag are inputs. The
  platform parses these from the message.

Behaviour of `main.py` worth knowing, which the model keeps:

- In a direct message, resolution returns the bare `";"` with no mention forms (main.py:45-48).
- A storage failure during resolution is not turned into the default prefix. `main.py` has no such
  fallback, and storage failures are left out below.
- The retraction wait listens to the bot-wide `reaction_add` event (main.py:113), and the filter
  (main.py:110-111) never checks which message was reacted to. So the requester's 🗑️ on any
  message in the bot's message cache deletes the reply, and it releases every pending reply of that user at
  once. `Reaction` carries the reacted-to message so that `Retraction.AnyMessageRetracts` can
  state this.
- The tag lookup loop is modelled as intended, with every name queried in turn. In `main.py` as
  written it fails from the second name on; see the `db.close()` entry under "## Left out". The
  rows for `TagCommand.LookupAll*`, `TagCommand.Aggregate` and
  `TagCommand.AbortOnFirstMissExample` describe that intended loop.

## Model

| member | source | states |
|---|---|---|
| Text.MentionTokenIff | main.py:138 | The scanning test agrees on every string with the declarative reading of the pattern `<@(!?)([0-9]*)>`: `<@`, then a `>` that closes an optional `!` followed by digits only. Anything may follow the `>`. |
| Text.JoinLength | main.py:157 | The joined reply is exactly as long as the pieces plus one separator between each adjacent pair. Nothing is truncated. |
| Text.JoinSnoc | main.py:161 | Joining one more piece appends the separator and then that piece. |
| Text.LowerIdempotent | main.py:142 | A folded name has no upper-case letter, and folding it again changes nothing. So all spellings that fold alike address one row. |
| Prefixes.Resolve | main.py:39-62 | In a direct message the result is exactly the default `;` and nothing else. In a guild it has three alternatives: the stored prefix (or `;` when the guild has no row), then the bot's mention, then its `@!` form. |
| Prefixes.SetPrefix | main.py:211-222 | After the upsert, the guild has a row holding the new prefix. Every other guild's row is unchanged, and no row is removed. |
| Prefixes.SetThenResolve | main.py:213-222 | After `prefix p` in guild g, resolution in g offers p first. Resolution in every other guild and in direct messages is unchanged. |
| Prefixes.SetPrefixLastWriteWins | main.py:217-222 | Two writes to one guild leave only the second. Writing the current value changes nothing. |
| Prefixes.BotMentionForms | main.py:43 | For a bot mention `<@id>`, the `@`→`@!` replacement gives `<@!id>`. Both forms are mention tokens. |
| TagStore.TagAdd | main.py:173-190 | Within the handler body (after the framework's permission and guild gates, which are left out), content over 1900 characters is rejected first. Otherwise a mention-shaped name is rejected. On either rejection the table is unchanged. Otherwise the key `(guild, lower(name))` maps to the content, the reply names the folded name, and every other row is unchanged. Content of exactly 1900 characters is accepted. |
| TagStore.TagDelete | main.py:196-205 | Exactly the key `(guild, lower(name))` is removed, whether or not it existed. Every other row keeps its content. |
| TagStore.WritesPreserveWellFormed | main.py:175-189 | Both commands keep every stored name folded and every stored content within 1900 characters. |
| TagStore.TagDeleteIdempotent | main.py:202-205 | Deleting twice, or under another spelling that folds alike, is the same as deleting once. Deleting an absent tag changes nothing. |
| TagStore.TagAddOverwrites | main.py:182-189 | A second `tagadd` under a name that folds alike replaces the content instead of adding a row. |
| TagCommand.LookupAllSpec | main.py:141-154 | The intended lookup loop (see `db.close()` under Left out) queries the folded names in input order. If all names are found, it yields their contents in order. Otherwise it stops at the first name without a row, reports that folded name, and queries nothing after it. |
| TagCommand.LookupQueried | main.py:141-146 | The names queried are the folded input names, in input order. All of them are queried when every name has a row. A miss is the last name queried. |
| TagCommand.LookupFound | main.py:145-150 | Every name is found exactly when every name has a row. The contents then come back position by position. |
| TagCommand.LookupMissing | main.py:148-154 | A reported miss is the first name without a row. Every name before it has one. |
| TagCommand.Aggregate | main.py:122-167 | A mass-ping token gives the mass-ping rejection with no query. Otherwise role mentions give the role rejection with no query. Queries are the folded non-mention tokens in order, and unless a name is missing every one of them is queried (intended loop, see `db.close()` under Left out). A miss reports the first missing name. The reply body is the contents joined by a blank line, and only when shorter than 4096. At 4096 or more the result is "too many". No names gives "specify a tag". Each outcome is characterised in both directions. |
| TagCommand.TagNamesAppend | main.py:138 | The mention filter works piecewise over concatenation. Kept tokens stay in input order, and repeats are kept. |
| TagCommand.TagNamesSingle | main.py:138 | A single token is kept exactly when it is not a mention token. |
| TagCommand.TagNamesSound | main.py:138 | Every kept name is an input token and is not a mention. |
| TagCommand.MentionsNeverQueried | main.py:138-145 | Every queried name is the folding of an input token that is not a mention. |
| TagCommand.NoAtNoMassPing | main.py:124-127 | A token without `@` never trips the mass-ping guard. |
| TagCommand.AbortOnFirstMissExample | main.py:148-154 | Under the intended loop, `tag alpha missing beta`, with alpha and beta stored, reports `missing`, never queries `beta`, and sends no reply. As written, the second query fails instead (see `db.close()` under Left out). |
| TagCommand.NotFoundTextNamesFirstMiss | main.py:152 | When neither guard trips (no `@everyone`/`@here` token, no role mention) and some name has no row, the notice is ``tag `n` not found!`` where n is the folded first missing name, and n can be read back out of the notice. |
| TagCommand.OnlyMentionsAsksForTag | main.py:166-167 | With only mention tokens (or none) after the command, none carrying `@everyone` or `@here`, and no role mentions, nothing is queried and the reply is "You need to specify a tag!". |
| TagCommand.AddThenTag | main.py:142-150 | After an accepted `tagadd Foo c`, `tag foo` replies with exactly c, as does any spelling that folds alike, is not a mention token and contains neither `@everyone` nor `@here`. |
| TagCommand.DeleteThenTag | main.py:145-154 | After `tagdelete`, asking for that name reports it as not found, in any spelling that folds alike, is not a mention token and contains neither `@everyone` nor `@here`. |
| TagCommand.TwoTagsNeverTooMany | main.py:155-159 | On a table written only by `tagadd`, asking for one or two tags never hits the 4096 bound. |
| Retraction.Observe | main.py:109-117 | An armed watcher fires on a reaction exactly when that reaction is from the requester and is the wastebasket. A fired watcher stays fired. |
| Retraction.ObserveAllFires | main.py:109-117 | Over any sequence of reactions, the reply is deleted when some reaction passes the filter. Otherwise the watcher stays armed. |
| Retraction.FiredIsFinal | main.py:113-117 | Once the reply is deleted, later reactions change nothing. |
| Retraction.AnyMessageRetracts | main.py:110-113 | The requester's wastebasket on a message other than the reply still deletes the reply, and fires every armed watcher of that requester. |
| Retraction.OnlyRequesterRetracts | main.py:110-111 | Reactions from other users, or other emoji from the requester, never delete the reply. |
| ErrorReport.Chunks | main.py:298-299 | Empty text gives no slices. Every slice is non-empty and at most 1988 long. Every slice but the last is exactly 1988. |
| ErrorReport.ChunksUnfold | main.py:299 | Text longer than one slice gives its first 1988 characters, then the slices of the rest. |
| ErrorReport.ChunksRoundTrip | main.py:297-299 | Concatenating the slices in order gives back the traceback text exactly. |
| ErrorReport.ReportMessages | main.py:302-304 | Message k is slice k between the opening fence and the closing fence, in slice order. One final message names the failing command. |
| ErrorReport.ReportRoundTrip | main.py:297-303 | Stripping the fences from the code-block messages and concatenating them in sending order gives back the whole traceback. |
| ErrorReport.ReportBlocksFit | main.py:298-303 | Every code-block message is at most 2000 characters. |

## Left out

- Discord transport is left out because it is all library calls:
  - replies, embeds and footers;
  - `ctx.message.delete`. In `tagdelete` a `Forbidden` is swallowed (main.py:198-201). In `tag` the call (main.py:160) is not wrapped, so a `Forbidden` there ends the command before the reply is sent;
  - `delete_after` timers;
  - `reply.delete()` and the swallowing of `NotFound`;
  - the `Help` command (main.py:65-76);
  - bot construction and `run` (main.py:80-88, 311).
- The aiomysql pool and the cursor lifecycle (main.py:49-58, 92-104, 139-147, 180-181, 202-204) are left out. Tables are pure maps.
  - `db.close()` at main.py:147 sits inside the per-tag loop. So whenever the first name resolves and a second name follows, the second `db.execute` (main.py:145) runs on a closed cursor. That raises, and the invocation ends in the generic error handler.
  - As written, then, `tag alpha missing beta` never reports `missing`, and no multi-tag reply is ever sent.
  - The model gives the intended semantics, with every name queried in turn.
- Select-then-insert/update races and pool concurrency are left out. Each upsert is one atomic map update.
- A storage failure is not modelled. It takes one of two paths in the code:
  - In a command body (`tag`, `tagadd`, `tagdelete`, `prefix`) it propagates to the command error handler `on_command_error` (main.py:236-307), which sends the operator report (main.py:287-307).
  - During prefix resolution, `prefixgetter` runs inside `get_context`, and again directly, in the `on_message` event (main.py:230-231). There the failure goes to the library's event error handler, no command runs, and no operator report is sent.
- Waiting for reactions (`wait_for`, main.py:113, 164-165) is asynchronous and has no timeout. It is modelled only as a watcher stepping over the reactions that arrive. Cancellation and the missing timeout are not modelled.
- The `"help"` tag name is treated as an ordinary name.
  - Line 144 indexes `prefix[0]`, where `prefix` is the command object, so it would raise.
  - Line 149 compares a row tuple with `"help"`, which is always unequal.
- argparse, dotenv and logging setup (main.py:15-36) are left out because they are configuration.
- The rest of the error handler's type dispatch (main.py:236-296, 300-301, 305-307) is left out because it is framework routing and channel I/O.
- Cooldown message formatting (main.py:263-272) is left out because it uses float rounding.
- `on_message` (main.py:229-233) is left out because it only forwards to the framework.
- The command gates are left out because the framework runs them before any handler body: `@commands.guild_only()` on every command (main.py:121, 172, 195, 210), `has_guild_permissions(manage_messages=True)` on `tagadd` and `tagdelete` (main.py:171, 194), and `has_guild_permissions(administrator=True)` on `prefix` (main.py:209). A caller without the permission, or an invocation in a direct message, is rejected with the table unchanged. The caller then gets "You are not allowed to do that!" (main.py:248-250) or the direct-message notice (main.py:283-284). `Prefixes.SetPrefix`, `TagStore.TagAdd`, `TagStore.TagDelete` and `TagCommand.Aggregate` assume an authorised caller in a guild.
- The user mention list and the role-mention flag are inputs, not derived from the tokens, because the platform parses them.
- Text.Lower: does not fold non-ASCII letters as Python's `str.lower` does. The model folds only A–Z.

=== FILE: common.dfy ===
/** Types shared by every command handler. */
module Common {

  datatype Option<+T> = None | Some(value: T)

  /** A guild (server) id; every stored row is scoped by one. */
  type GuildId = nat
}

=== FILE: error_report.dfy ===
/** The last branch of the command error handler: the formatted traceback
    is cut into slices of 1988 characters, each sent to the operator
    channel in a code block, followed by the name of the failing command. */
module ErrorReport {

  /** Slice width used for the traceback text. */
  const ChunkSize: nat := 1988

  function Min(a: int, b: int): int
  {
    if a <= b then a else b
  }

  /** Number of start offsets in `range(0, n, ChunkSize)`. */
  function ChunkCount(n: nat): nat
  {
    (n + ChunkSize - 1) / ChunkSize
  }

  /** `[text[i:i + 1988] for i in range(0, len(text), 1988)]`: slice k starts
      at k * 1988 and is clipped at the end of the text. */
  function Chunks(text: string): (cs: seq<string>)
    ensures |text| == 0 <==> |cs| == 0
    ensures forall k :: 0 <= k < |cs| ==> 0 < |cs[k]| <= ChunkSize
    ensures forall k :: 0 <= k < |cs| - 1 ==> |cs[k]| == ChunkSize
  {
    seq(ChunkCount(|text|), k requires 0 <= k < ChunkCount(|text|) =>
      text[k * ChunkSize .. Min(k * ChunkSize + ChunkSize, |text|)])
  }

  /** Concatenation of the pieces, in order. */
  function Concat(xs: seq<string>): string
  {
    if |xs| == 0 then "" else xs[0] + Concat(xs[1..])
  }

  /** A text longer than one slice is its first slice followed by the
      slices of the rest. */
  lemma ChunksUnfold(text: string)
    requires |text| > ChunkSize
    ensures Chunks(text) == [text[..ChunkSize]] + Chunks(text[ChunkSize..])
  {
    var cs := Chunks(text);
    var rest := Chunks(text[ChunkSize..]);
    assert |cs| == 1 + |rest|;
    forall k | 0 <= k < |rest|
      ensures cs[k + 1] == rest[k]
    {
      var lo := k * ChunkSize;
      var hi := Min(lo + ChunkSize, |text| - ChunkSize);
      assert (k + 1) * ChunkSize == lo + ChunkSize;
      assert rest[k] == text[ChunkSize..][lo..hi];
      assert text[ChunkSize..][lo..hi] == text[lo + ChunkSize..hi + ChunkSize];
      assert cs[k + 1] == text[lo + ChunkSize..hi + ChunkSize];
    }
    assert cs[0] == text[..ChunkSize];
  }

  /** Sending the slices in order sends the whole traceback: nothing is
      dropped, repeated or reordered. */
  lemma {:induction false} ChunksRoundTrip(text: string)
    ensures Concat(Chunks(text)) == text
    decreases |text|
  {
    if |text| == 0 {
    } else if |text| <= ChunkSize {
      assert ChunkCount(|text|) == 1;
      assert Chunks(text)[0] == text;
      assert Chunks(text) == [text];
      assert Concat([text]) == text + Concat([]);
    } else {
      ChunksUnfold(text);
      ChunksRoundTrip(text[ChunkSize..]);
      assert ([text[..ChunkSize]] + Chunks(text[ChunkSize..]))[1..] == Chunks(text[ChunkSize..]);
      assert text == text[..ChunkSize] + text[ChunkSize..];
    }
  }

  /** The four characters that open and close each code block. */
  const OpenFence: string := "```\n"
  const CloseFence: string := "\n```"

  /** A code-block message without its two four-character fences. */
  function Unfence(m: string): string
    requires |m| >= 8
  {
    m[4..|m| - 4]
  }

  /** The messages sent to the operator channel: every slice in a code
      block, then the name of the command that failed. */
  function ReportMessages(trace: string, commandName: string): (ms: seq<string>)
    ensures |ms| == |Chunks(trace)| + 1
    ensures forall k :: 0 <= k < |Chunks(trace)| ==> ms[k] == OpenFence + Chunks(trace)[k] + CloseFence
    ensures ms[|ms| - 1] == " Command being invoked: " + commandName
  {
    var cs := Chunks(trace);
    seq(|cs|, k requires 0 <= k < |cs| => OpenFence + cs[k] + CloseFence)
      + [" Command being invoked: " + commandName]
  }

  /** Stripping the fences from the code-block messages and concatenating
      them, in sending order, gives back the whole traceback. */
  lemma ReportRoundTrip(trace: string, commandName: string)
    ensures var ms := ReportMessages(trace, commandName);
            && (forall k :: 0 <= k < |ms| - 1 ==> |ms[k]| >= 8)
            && Concat(seq(|ms| - 1, k requires 0 <= k < |ms| - 1 && |ms[k]| >= 8 => Unfence(ms[k]))) == trace
  {
    var ms := ReportMessages(trace, commandName);
    var cs := Chunks(trace);
    var bodies := seq(|ms| - 1, k requires 0 <= k < |ms| - 1 && |ms[k]| >= 8 => Unfence(ms[k]));
    forall k | 0 <= k < |cs|
      ensures bodies[k] == cs[k]
    {
      var m := OpenFence + cs[k] + CloseFence;
      assert ms[k] == m;
      assert m[4..|m| - 4] == cs[k];
    }
    assert bodies == cs;
    ChunksRoundTrip(trace);
  }

  /** Each code-block message fits in the platform's 2000-character limit:
      the 1988 characters of a slice plus the eight of the fences. */
  lemma ReportBlocksFit(trace: string, commandName: string)
    ensures forall k :: 0 <= k < |Chunks(trace)| ==> |ReportMessages(trace, commandName)[k]| <= 2000
  {
  }
}

=== FILE: prefixes.dfy ===
/** The per-guild command prefix: the `prefixes` table as a map, the
    resolution run on every inbound message, and the administrator's
    `prefix` command that overwrites a guild's row. */
module Prefixes {
  import opened Common
  import opened Text

  /** The `prefixes` table: at most one prefix per guild. */
  type PrefixStore = map<GuildId, string>

  const DefaultPrefix: string := ";"

  /** What resolution hands to the command framework: the bare default in a
      direct message, otherwise the guild's prefix followed by the two
      mention forms of the bot, either of which also invokes it. */
  datatype PrefixSet =
    | Bare(prefix: string)
    | WithMentions(prefix: string, mention: string, bangMention: string)
  {
    /** The prefixes a message may start with, in the order returned. */
    function Alternatives(): seq<string>
    {
      match this
      case Bare(p) => [p]
      case WithMentions(p, m, b) => [p, m, b]
    }
  }

  /** `mention.replace('@', '@!')`: the nickname form of a mention. */
  function BangMention(mention: string): string
  {
    ReplaceChar(mention, '@', "@!")
  }

  /** Resolution for a message that carries `guild` (None in a direct
      message), given the bot's own mention text. */
  function Resolve(store: PrefixStore, guild: Option<GuildId>, botMention: string): (r: PrefixSet)
    ensures guild.None? <==> r.Bare?
    ensures guild.None? ==> r.Alternatives() == [DefaultPrefix]
    ensures guild.Some? ==> |r.Alternatives()| == 3
    ensures guild.Some? ==> r.Alternatives()[1..] == [botMention, BangMention(botMention)]
    ensures guild.Some? && guild.value in store ==> r.prefix == store[guild.value]
    ensures guild.Some? && guild.value !in store ==> r.prefix == DefaultPrefix
  {
    match guild
    case None => Bare(DefaultPrefix)
    case Some(g) =>
      var p := if g in store then store[g] else DefaultPrefix;
      WithMentions(p, botMention, BangMention(botMention))
  }

  /** The `prefix` command: insert the row if absent, else overwrite it. */
  function SetPrefix(store: PrefixStore, guild: GuildId, newPrefix: string): (s: PrefixStore)
    ensures s.Keys == store.Keys + {guild}
    ensures s[guild] == newPrefix
    ensures forall g :: g in store && g != guild ==> s[g] == store[g]
  {
    store[guild := newPrefix]
  }

  /** After setting `p` for `g`, resolving in `g` offers `p` first, and
      every other guild (and every direct message) resolves as before. */
  lemma SetThenResolve(store: PrefixStore, g: GuildId, p: string, other: Option<GuildId>, botMention: string)
    requires other != Some(g)
    ensures Resolve(SetPrefix(store, g, p), Some(g), botMention).Alternatives()[0] == p
    ensures Resolve(SetPrefix(store, g, p), other, botMention) == Resolve(store, other, botMention)
  {
  }

  /** The second of two writes wins, and writing the current value is a
      no-op: the command is an upsert, never an append. */
  lemma SetPrefixLastWriteWins(store: PrefixStore, g: GuildId, p: string, q: string)
    ensures SetPrefix(SetPrefix(store, g, p), g, q) == SetPrefix(store, g, q)
    ensures g in store ==> SetPrefix(store, g, store[g]) == store
  {
  }

  /** For a mention `<@` + digits + `>` the nickname form is `<@!` + digits +
      `>`, and both are mention tokens: a tag cannot be named after the bot. */
  lemma BotMentionForms(id: string)
    requires AllDigits(id)
    ensures BangMention("<@" + id + ">") == "<@!" + id + ">"
    ensures IsMentionToken("<@" + id + ">")
    ensures IsMentionToken("<@!" + id + ">")
  {
    BangOfMention(id);
    ClosedDigitsAreMention("<@", id);
    ClosedDigitsAreMention("<@!", id);
  }

  lemma BangOfMention(id: string)
    requires AllDigits(id)
    ensures BangMention("<@" + id + ">") == "<@!" + id + ">"
  {
    var tail := id + ">";
    assert "<@" + id + ">" == "<@" + tail;
    ReplaceCharAppend("<@", tail, '@', "@!");
    ReplaceCharAppend(id, ">", '@', "@!");
    ReplaceCharAbsent(id, '@', "@!");
    assert ReplaceChar("<@", '@', "@!") == "<@!";
    assert ReplaceChar(">", '@', "@!") == ">";
    assert "<@!" + tail == "<@!" + id + ">";
  }

  lemma ClosedDigitsAreMention(head: string, id: string)
    requires head == "<@" || head == "<@!"
    requires AllDigits(id)
    ensures IsMentionToken(head + id + ">")
  {
    var m := head + id + ">";
    var rest := id + ">";
    assert m[|head|..] == rest;
    assert rest[..|id|] == id;
    DigitRunStops(rest, |id|);
  }
}

=== FILE: retraction.dfy ===
/** Retraction of a `tag` reply: once the reply is sent, the bot waits for
    the next reaction the invoking author adds with the wastebasket, and
    then deletes the reply. The wait listens to every reaction added to any
    message in the bot's message cache, and the filter does not look at
    which message was reacted to; the wait is modelled over that bot-wide
    sequence of added reactions, in arrival order. */
module Retraction {

  type UserId = nat

  type MessageId = nat

  /** The wastebasket glyph: U+1F5D1 followed by the emoji variation
      selector U+FE0F. */
  const Wastebasket: string := "\U{1F5D1}\U{FE0F}"

  /** A reaction added by `user` to the message `message`. */
  datatype Reaction = Reaction(message: MessageId, user: UserId, emoji: string)

  /** The filter applied to every added reaction: only the author of the
      invocation, and only the exact wastebasket text; the reacted-to
      message is not checked. */
  predicate AddedEmojiCheck(author: UserId, r: Reaction)
  {
    r.user == author && r.emoji == Wastebasket
  }

  /** One pending retraction: armed on a sent reply for its requester, or
      fired once the reply has been deleted. */
  datatype Watcher =
    | Armed(reply: MessageId, requester: UserId)
    | Fired(reply: MessageId)

  /** The watcher's reaction to one added reaction. */
  function Observe(w: Watcher, r: Reaction): (w': Watcher)
    ensures w'.reply == w.reply
    ensures w.Fired? ==> w' == w
    ensures w.Armed? && !AddedEmojiCheck(w.requester, r) ==> w' == w
    ensures w.Armed? ==> (w'.Fired? <==> AddedEmojiCheck(w.requester, r))
  {
    match w
    case Fired(_) => w
    case Armed(m, u) => if AddedEmojiCheck(u, r) then Fired(m) else w
  }

  /** The watcher after a sequence of reactions, in arrival order. */
  function ObserveAll(w: Watcher, rs: seq<Reaction>): Watcher
    decreases |rs|
  {
    if |rs| == 0 then w else ObserveAll(Observe(w, rs[0]), rs[1..])
  }

  /** The reply is deleted exactly when some reaction passes the filter;
      otherwise the watcher stays armed, however many reactions arrive. */
  lemma {:induction false} ObserveAllFires(m: MessageId, u: UserId, rs: seq<Reaction>)
    ensures (exists i :: 0 <= i < |rs| && AddedEmojiCheck(u, rs[i])) ==>
              ObserveAll(Armed(m, u), rs) == Fired(m)
    ensures (forall i :: 0 <= i < |rs| ==> !AddedEmojiCheck(u, rs[i])) ==>
              ObserveAll(Armed(m, u), rs) == Armed(m, u)
  {
    if |rs| > 0 {
      if AddedEmojiCheck(u, rs[0]) {
        FiredIsFinal(m, rs[1..]);
      } else {
        ObserveAllFires(m, u, rs[1..]);
        assert forall i :: 1 <= i < |rs| ==> rs[1..][i - 1] == rs[i];
      }
    }
  }

  /** Fired is terminal: no later reaction changes it. */
  lemma {:induction false} FiredIsFinal(m: MessageId, rs: seq<Reaction>)
    ensures ObserveAll(Fired(m), rs) == Fired(m)
  {
    if |rs| > 0 {
      FiredIsFinal(m, rs[1..]);
    }
  }

  /** The requester's wastebasket on any message, not only on the reply,
      deletes the reply, and one such reaction fires every pending watcher
      of that requester at once. */
  lemma AnyMessageRetracts(m: MessageId, other: MessageId, u: UserId, pending: seq<Watcher>)
    requires m != other
    requires forall i :: 0 <= i < |pending| ==> pending[i].Armed? && pending[i].requester == u
    ensures Observe(Armed(m, u), Reaction(other, u, Wastebasket)) == Fired(m)
    ensures forall i :: 0 <= i < |pending| ==>
              Observe(pending[i], Reaction(other, u, Wastebasket)) == Fired(pending[i].reply)
  {
  }

  /** Reactions of anyone but the requester, and other emoji of the
      requester, never delete the reply. */
  lemma OnlyRequesterRetracts(m: MessageId, u: UserId, rs: seq<Reaction>)
    requires forall i :: 0 <= i < |rs| ==> rs[i].user != u || rs[i].emoji != Wastebasket
    ensures ObserveAll(Armed(m, u), rs) == Armed(m, u)
  {
    ObserveAllFires(m, u, rs);
  }
}

=== FILE: tag_command.dfy ===
/** The `tag` command: guards against mass and role pings, drops mention
    tokens, looks the remaining names up in input order (stopping at the
    first miss), and joins the contents into one reply of bounded size. */
module TagCommand {
  import opened Common
  import opened Text
  import opened TagStore

  /** Separator between the contents of consecutive tags in the reply. */
  const Separator: string := "\n\n"

  /** Replies of this length or longer are refused, never truncated. */
  const MaxReplyLength: nat := 4096

  /** A token that would ping everyone in the guild. */
  predicate IsMassPing(token: string)
  {
    Contains(token, "@everyone") || Contains(token, "@here")
  }

  predicate HasMassPing(tokens: seq<string>)
  {
    exists i :: 0 <= i < |tokens| && IsMassPing(tokens[i])
  }

  /** The tokens that are not user mentions, in their original order. */
  function TagNames(tokens: seq<string>): seq<string>
  {
    if |tokens| == 0 then []
    else (if IsMentionToken(tokens[0]) then [] else [tokens[0]]) + TagNames(tokens[1..])
  }

  /** How the reply to one invocation ends. */
  datatype TagReply =
    | MassPing                      // "Mass ping attempt detected, no actions taken."
    | RoleMention                   // "Role mention attempt detected, no actions taken"
    | NotFound(name: string)        // "tag `name` not found!"
    | TooManyFactoids               // "You have too many factoids!"
    | NoTagSpecified                // "You need to specify a tag!"
    | Reply(body: string, pings: seq<string>)

  /** The reply together with the names queried in the store, in order. */
  datatype Invocation = Invocation(reply: TagReply, queried: seq<string>)

  datatype LookupOutcome = AllFound(contents: seq<string>) | Missing(name: string)

  datatype Lookup = Lookup(queried: seq<string>, outcome: LookupOutcome)

  /** The name typed in `guild` has a row. */
  predicate Resolvable(store: Store, guild: GuildId, name: string)
  {
    KeyFor(guild, name) in store
  }

  predicate AllResolvable(store: Store, guild: GuildId, names: seq<string>)
  {
    forall i :: 0 <= i < |names| ==> Resolvable(store, guild, names[i])
  }

  /** The contents of every name, position by position. */
  function Contents(store: Store, guild: GuildId, names: seq<string>): (cs: seq<string>)
    requires AllResolvable(store, guild, names)
    ensures |cs| == |names|
  {
    seq(|names|, i requires 0 <= i < |names| => store[KeyFor(guild, names[i])])
  }

  /** Index of the first name without a row. */
  predicate IsFirstMiss(store: Store, guild: GuildId, names: seq<string>, k: nat)
  {
    && k < |names|
    && !Resolvable(store, guild, names[k])
    && AllResolvable(store, guild, names[..k])
  }

  /** The lookup loop: each name is folded and queried in turn; the first
      name without a row ends the loop and no later name is queried. */
  function LookupAll(store: Store, guild: GuildId, names: seq<string>): Lookup
  {
    if |names| == 0 then Lookup([], AllFound([]))
    else
      var t := Lower(names[0]);
      if !Resolvable(store, guild, names[0]) then Lookup([t], Missing(t))
      else
        var rest := LookupAll(store, guild, names[1..]);
        if rest.outcome.Missing? then Lookup([t] + rest.queried, rest.outcome)
        else Lookup([t] + rest.queried, AllFound([store[KeyFor(guild, names[0])]] + rest.outcome.contents))
  }

  /** What the loop computes: the queried names are a prefix of the folded
      input, all names found gives their contents in order, and a miss is
      the first name without a row, after which nothing is queried. */
  lemma LookupAllSpec(store: Store, guild: GuildId, names: seq<string>)
    ensures var l := LookupAll(store, guild, names);
      && |l.queried| <= |names|
      && (forall i :: 0 <= i < |l.queried| ==> l.queried[i] == Lower(names[i]))
      && (l.outcome.AllFound? <==> AllResolvable(store, guild, names))
      && (l.outcome.AllFound? ==>
            |l.queried| == |names| && l.outcome.contents == Contents(store, guild, names))
      && (l.outcome.Missing? ==>
            && |l.queried| > 0
            && IsFirstMiss(store, guild, names, |l.queried| - 1)
            && l.outcome.name == Lower(names[|l.queried| - 1]))
  {
    LookupQueried(store, guild, names);
    LookupFound(store, guild, names);
    LookupMissing(store, guild, names);
  }

  /** The queried names are the folded input names, in order. */
  lemma {:induction false} LookupQueried(store: Store, guild: GuildId, names: seq<string>)
    ensures var l := LookupAll(store, guild, names);
      && |l.queried| <= |names|
      && (l.outcome.AllFound? ==> |l.queried| == |names|)
      && (l.outcome.Missing? ==> |l.queried| > 0 && l.outcome.name == Lower(names[|l.queried| - 1]))
      && (forall i :: 0 <= i < |l.queried| ==> l.queried[i] == Lower(names[i]))
  {
    if |names| > 0 && Resolvable(store, guild, names[0]) {
      var tail := names[1..];
      LookupQueried(store, guild, tail);
      var l := LookupAll(store, guild, names);
      var rest := LookupAll(store, guild, tail);
      assert l.queried == [Lower(names[0])] + rest.queried;
      forall i | 1 <= i < |l.queried|
        ensures l.queried[i] == Lower(names[i])
      {
        assert l.queried[i] == rest.queried[i - 1];
        assert tail[i - 1] == names[i];
      }
    }
  }

  /** Every name is found exactly when every name has a row, and then the
      contents come back in input order. */
  lemma {:induction false} LookupFound(store: Store, guild: GuildId, names: seq<string>)
    ensures var l := LookupAll(store, guild, names);
      && (l.outcome.AllFound? <==> AllResolvable(store, guild, names))
      && (l.outcome.AllFound? ==> l.outcome.contents == Contents(store, guild, names))
  {
    if |names| > 0 && Resolvable(store, guild, names[0]) {
      var tail := names[1..];
      LookupFound(store, guild, tail);
      assert forall i :: 1 <= i < |names| ==> tail[i - 1] == names[i];
      assert AllResolvable(store, guild, names) <==> AllResolvable(store, guild, tail);
    }
  }

  /** A miss is the first name without a row. */
  lemma {:induction false} LookupMissing(store: Store, guild: GuildId, names: seq<string>)
    ensures var l := LookupAll(store, guild, names);
      l.outcome.Missing? ==> 0 < |l.queried| <= |names| && IsFirstMiss(store, guild, names, |l.queried| - 1)
  {
    if |names| > 0 {
      if !Resolvable(store, guild, names[0]) {
        assert names[..0] == [];
      } else {
        var tail := names[1..];
        var rest := LookupAll(store, guild, tail);
        LookupMissing(store, guild, tail);
        if rest.outcome.Missing? {
          var k := |rest.queried|;
          assert names[..k] == [names[0]] + tail[..k - 1];
          assert forall i :: 1 <= i < k ==> names[..k][i] == tail[..k - 1][i - 1];
          assert AllResolvable(store, guild, names[..k]);
        }
      }
    }
  }

  /** One invocation of `tag` in `guild` with the raw tokens, the flag for
      role mentions and the mentions of users as the platform parsed them. */
  function Aggregate(store: Store, guild: GuildId, tokens: seq<string>,
                     hasRoleMentions: bool, mentions: seq<string>): (r: Invocation)
    // the guards run before any query
    ensures HasMassPing(tokens) ==> r == Invocation(MassPing, [])
    ensures !HasMassPing(tokens) && hasRoleMentions ==> r == Invocation(RoleMention, [])
    ensures r.reply.MassPing? ==> HasMassPing(tokens)
    ensures r.reply.RoleMention? ==> hasRoleMentions
    // names are queried folded, in input order, mention tokens skipped
    ensures |r.queried| <= |TagNames(tokens)|
    ensures forall i :: 0 <= i < |r.queried| ==> r.queried[i] == Lower(TagNames(tokens)[i])
    ensures !HasMassPing(tokens) && !hasRoleMentions && !r.reply.NotFound? ==>
              |r.queried| == |TagNames(tokens)|
    // the first miss is the one reported, and nothing after it is queried
    ensures r.reply.NotFound? ==>
              && |r.queried| > 0
              && IsFirstMiss(store, guild, TagNames(tokens), |r.queried| - 1)
              && r.reply.name == Lower(TagNames(tokens)[|r.queried| - 1])
    ensures !HasMassPing(tokens) && !hasRoleMentions ==>
              (r.reply.NotFound? <==> !AllResolvable(store, guild, TagNames(tokens)))
    // success: the contents joined in order, under the size bound
    ensures r.reply.Reply? <==>
              && !HasMassPing(tokens) && !hasRoleMentions
              && |TagNames(tokens)| > 0
              && AllResolvable(store, guild, TagNames(tokens))
              && |Join(Contents(store, guild, TagNames(tokens)), Separator)| < MaxReplyLength
    ensures r.reply.Reply? ==>
              r.reply.body == Join(Contents(store, guild, TagNames(tokens)), Separator)
              && r.reply.pings == mentions
    ensures r.reply.TooManyFactoids? <==>
              && !HasMassPing(tokens) && !hasRoleMentions
              && |TagNames(tokens)| > 0
              && AllResolvable(store, guild, TagNames(tokens))
              && |Join(Contents(store, guild, TagNames(tokens)), Separator)| >= MaxReplyLength
    ensures r.reply.NoTagSpecified? <==>
              !HasMassPing(tokens) && !hasRoleMentions && |TagNames(tokens)| == 0
  {
    if HasMassPing(tokens) then Invocation(MassPing, [])
    else if hasRoleMentions then Invocation(RoleMention, [])
    else
      var names := TagNames(tokens);
      var l := LookupAll(store, guild, names);
      LookupAllSpec(store, guild, names);
      match l.outcome
      case Missing(n) => Invocation(NotFound(n), l.queried)
      case AllFound(factoids) =>
        if |factoids| == 0 then Invocation(NoTagSpecified, l.queried)
        else
          var body := Join(factoids, Separator);
          if |body| >= MaxReplyLength then Invocation(TooManyFactoids, l.queried)
          else Invocation(Reply(body, mentions), l.queried)
  }

  /** The text sent back for each outcome (the success text is the line
      above the embed holding the body). */
  function ReplyText(r: TagReply): string
  {
    match r
    case MassPing => "Mass ping attempt detected, no actions taken."
    case RoleMention => "Role mention attempt detected, no actions taken"
    case NotFound(n) => "tag `" + n + "` not found!"
    case TooManyFactoids => "You have too many factoids!"
    case NoTagSpecified => "You need to specify a tag!"
    case Reply(_, pings) => Join(pings, " ") + " Please refer to the below information."
  }

  /* ---------------- properties ---------------- */

  /** When neither guard trips and some name has no row, the not-found
      notice names exactly the folded first missing name, and that name can
      be read back out of the notice. */
  lemma NotFoundTextNamesFirstMiss(store: Store, guild: GuildId, tokens: seq<string>,
                                   hasRoleMentions: bool, mentions: seq<string>)
    requires !HasMassPing(tokens) && !hasRoleMentions
    requires !AllResolvable(store, guild, TagNames(tokens))
    ensures var r := Aggregate(store, guild, tokens, hasRoleMentions, mentions);
            var k := |r.queried| - 1;
            && 0 <= k < |TagNames(tokens)|
            && IsFirstMiss(store, guild, TagNames(tokens), k)
            && ReplyText(r.reply) == "tag `" + Lower(TagNames(tokens)[k]) + "` not found!"
            && ReplyText(r.reply)[5..|ReplyText(r.reply)| - 12] == Lower(TagNames(tokens)[k])
  {
    var r := Aggregate(store, guild, tokens, hasRoleMentions, mentions);
    var n := Lower(TagNames(tokens)[|r.queried| - 1]);
    var t := "tag `" + n + "` not found!";
    assert |t| == |n| + 17;
    assert t[5..|t| - 12] == n;
  }

  /** With only mention tokens (or nothing) after the command, none of them
      carrying `@everyone` or `@here`, and no role mentions, the reply is the
      request to name a tag, and the store is never queried. */
  lemma OnlyMentionsAsksForTag(store: Store, guild: GuildId, tokens: seq<string>, mentions: seq<string>)
    requires forall i :: 0 <= i < |tokens| ==> IsMentionToken(tokens[i]) && !IsMassPing(tokens[i])
    ensures Aggregate(store, guild, tokens, false, mentions) == Invocation(NoTagSpecified, [])
    ensures ReplyText(Aggregate(store, guild, tokens, false, mentions).reply) == "You need to specify a tag!"
  {
    OnlyMentionsNoNames(tokens);
  }

  lemma {:induction false} OnlyMentionsNoNames(tokens: seq<string>)
    requires forall i :: 0 <= i < |tokens| ==> IsMentionToken(tokens[i])
    ensures TagNames(tokens) == []
  {
    if |tokens| > 0 {
      OnlyMentionsNoNames(tokens[1..]);
    }
  }

  /** A token without an `@` cannot carry a mass-ping marker. */
  lemma NoAtNoMassPing(t: string)
    requires forall i :: 0 <= i < |t| ==> t[i] != '@'
    ensures !IsMassPing(t)
  {
    forall i | 0 <= i <= |t|
      ensures !OccursAt(t, "@everyone", i) && !OccursAt(t, "@here", i)
    {
      if i + 5 <= |t| {
        assert t[i..i + 5][0] == t[i];
      }
      if i + 9 <= |t| {
        assert t[i..i + 9][0] == t[i];
      }
    }
  }

  /** The filter is a homomorphism: it keeps a single token exactly when it
      is not a mention, and filters a concatenation piecewise, so the kept
      names appear in input order with repeats kept. */
  lemma {:induction false} TagNamesAppend(a: seq<string>, b: seq<string>)
    ensures TagNames(a + b) == TagNames(a) + TagNames(b)
  {
    if |a| == 0 {
      assert a + b == b;
    } else {
      assert (a + b)[1..] == a[1..] + b;
      TagNamesAppend(a[1..], b);
    }
  }

  lemma TagNamesSingle(t: string)
    ensures TagNames([t]) == if IsMentionToken(t) then [] else [t]
  {
    assert [t][1..] == [];
  }

  /** Every kept name is a token of the input and not a mention. */
  lemma {:induction false} TagNamesSound(tokens: seq<string>)
    ensures forall n :: n in TagNames(tokens) ==> n in tokens && !IsMentionToken(n)
  {
    if |tokens| > 0 {
      TagNamesSound(tokens[1..]);
    }
  }

  /** Mention tokens are never looked up: every queried name is the folding
      of a token that is not a mention. */
  lemma MentionsNeverQueried(store: Store, guild: GuildId, tokens: seq<string>,
                             hasRoleMentions: bool, mentions: seq<string>)
    ensures forall i :: 0 <= i < |Aggregate(store, guild, tokens, hasRoleMentions, mentions).queried| ==>
              exists t :: t in tokens && !IsMentionToken(t)
                          && Aggregate(store, guild, tokens, hasRoleMentions, mentions).queried[i] == Lower(t)
  {
    var r := Aggregate(store, guild, tokens, hasRoleMentions, mentions);
    var names := TagNames(tokens);
    TagNamesSound(tokens);
    forall i | 0 <= i < |r.queried|
      ensures exists t :: t in tokens && !IsMentionToken(t) && r.queried[i] == Lower(t)
    {
      assert names[i] in names;
    }
  }

  /** The example of an abort: with `alpha` and `beta` stored and `missing`
      not, `tag alpha missing beta` reports `missing`, queries `beta` never,
      and produces no reply. */
  lemma AbortOnFirstMissExample(store: Store, guild: GuildId)
    requires Resolvable(store, guild, "alpha") && Resolvable(store, guild, "beta")
    requires !Resolvable(store, guild, "missing")
    ensures Aggregate(store, guild, ["alpha", "missing", "beta"], false, [])
            == Invocation(NotFound("missing"), ["alpha", "missing"])
  {
    var tokens := ["alpha", "missing", "beta"];
    assert !IsMentionToken("alpha") && !IsMentionToken("missing") && !IsMentionToken("beta");
    TagNamesAppend(["alpha"], ["missing", "beta"]);
    TagNamesAppend(["missing"], ["beta"]);
    TagNamesSingle("alpha");
    TagNamesSingle("missing");
    TagNamesSingle("beta");
    assert ["alpha"] + (["missing"] + ["beta"]) == tokens;
    assert TagNames(tokens) == tokens;
    NoAtNoMassPing("alpha");
    NoAtNoMassPing("missing");
    NoAtNoMassPing("beta");
    assert !HasMassPing(tokens);
    assert Lower("alpha") == "alpha" && Lower("missing") == "missing";
    var r := Aggregate(store, guild, tokens, false, []);
    assert IsFirstMiss(store, guild, tokens, 1);
    assert |r.queried| == 2;
  }

  /** Case does not matter: a tag added as `name` is found under every
      spelling that folds to the same text, is not a mention token and
      contains neither `@everyone` nor `@here`; one name alone is always
      short enough to be sent. */
  lemma AddThenTag(store: Store, guild: GuildId, name: string, spelled: string, contents: string)
    requires Lower(spelled) == Lower(name)
    requires !IsMentionToken(spelled) && !IsMassPing(spelled)
    requires TagAdd(store, guild, name, contents).outcome.Added?
    ensures Aggregate(TagAdd(store, guild, name, contents).store, guild, [spelled], false, [])
            == Invocation(Reply(contents, []), [Lower(name)])
  {
    var s := TagAdd(store, guild, name, contents).store;
    TagNamesSingle(spelled);
    assert !HasMassPing([spelled]);
    assert Contents(s, guild, [spelled]) == [contents];
  }

  /** After `tagdelete`, asking for the same name in any spelling that is
      not a mention token and contains neither `@everyone` nor `@here`
      reports it as not found. */
  lemma DeleteThenTag(store: Store, guild: GuildId, name: string, spelled: string)
    requires Lower(spelled) == Lower(name)
    requires !IsMentionToken(spelled) && !IsMassPing(spelled)
    ensures Aggregate(TagDelete(store, guild, name), guild, [spelled], false, [])
            == Invocation(NotFound(Lower(name)), [Lower(name)])
  {
    TagNamesSingle(spelled);
    assert !HasMassPing([spelled]);
  }

  /** Contents written by `tagadd` are at most 1900 long, so asking for one
      or two tags can never hit the 4096 bound; only three or more can. */
  lemma {:induction false} TwoTagsNeverTooMany(store: Store, guild: GuildId, tokens: seq<string>,
                                               hasRoleMentions: bool, mentions: seq<string>)
    requires WellFormed(store)
    requires |TagNames(tokens)| <= 2
    ensures !Aggregate(store, guild, tokens, hasRoleMentions, mentions).reply.TooManyFactoids?
  {
    var names := TagNames(tokens);
    if !HasMassPing(tokens) && !hasRoleMentions && |names| > 0 && AllResolvable(store, guild, names) {
      var cs := Contents(store, guild, names);
      JoinLength(cs, Separator);
      assert |cs[0]| <= MaxContentLength;
      if |cs| == 2 {
        assert |cs[1]| <= MaxContentLength;
        assert cs[1..][1..] == [];
        assert TotalLength(cs) == |cs[0]| + |cs[1]|;
      } else {
        assert cs[1..] == [];
      }
    }
  }
}

=== FILE: tag_store.dfy ===
/** The `tags` table as a map keyed by (guild, folded name), and the two
    moderator commands that write it: `tagadd` (an upsert guarded by a
    length limit and a no-ping-names rule) and `tagdelete`. */
module TagStore {
  import opened Common
  import opened Text

  /** Key of one row: at most one content per guild and tag name. */
  datatype TagKey = TagKey(guild: GuildId, name: string)

  type Store = map<TagKey, string>

  /** Longest tag content `tagadd` accepts. */
  const MaxContentLength: nat := 1900

  /** The row addressed by a name typed in `guild`: names are case-folded
      before every read and write. */
  function KeyFor(guild: GuildId, name: string): TagKey
  {
    TagKey(guild, Lower(name))
  }

  /** What `tagadd` does; every outcome has its reply in the source. */
  datatype AddOutcome =
    | ContentTooLong          // "That factoid is too long!"
    | PingName                // "You cannot have a ping factoid."
    | Added(name: string, contents: string)

  datatype AddResult = AddResult(outcome: AddOutcome, store: Store)

  /** Every row `tagadd` can produce: a folded name and content within the
      limit. */
  predicate WellFormed(store: Store)
  {
    forall k :: k in store ==> IsLower(k.name) && |store[k]| <= MaxContentLength
  }

  /** The body of `tagadd name contents`, reached only by a caller with
      the manage-messages permission in a guild: the length check runs
      first, then the ping-name check; only when both pass is the row
      written. */
  function TagAdd(store: Store, guild: GuildId, name: string, contents: string): (r: AddResult)
    ensures |contents| > MaxContentLength ==> r.outcome == ContentTooLong
    ensures |contents| <= MaxContentLength && IsMentionToken(name) ==> r.outcome == PingName
    ensures !r.outcome.Added? ==> r.store == store
    ensures r.outcome.Added? <==> |contents| <= MaxContentLength && !IsMentionToken(name)
    ensures r.outcome.Added? ==> r.outcome == Added(Lower(name), contents)
    ensures r.outcome.Added? ==>
              && r.store.Keys == store.Keys + {KeyFor(guild, name)}
              && r.store[KeyFor(guild, name)] == contents
              && forall k :: k in store && k != KeyFor(guild, name) ==> r.store[k] == store[k]
  {
    if |contents| > MaxContentLength then AddResult(ContentTooLong, store)
    else if IsMentionToken(name) then AddResult(PingName, store)
    else AddResult(Added(Lower(name), contents), store[KeyFor(guild, name) := contents])
  }

  /** `tagdelete name`: unconditional, whether or not the row exists. */
  function TagDelete(store: Store, guild: GuildId, name: string): (s: Store)
    ensures s.Keys == store.Keys - {KeyFor(guild, name)}
    ensures forall k :: k in s ==> s[k] == store[k]
  {
    store - {KeyFor(guild, name)}
  }

  /** Both commands keep every row folded and within the length limit. */
  lemma WritesPreserveWellFormed(store: Store, guild: GuildId, name: string, contents: string)
    requires WellFormed(store)
    ensures WellFormed(TagAdd(store, guild, name, contents).store)
    ensures WellFormed(TagDelete(store, guild, name))
  {
    LowerIdempotent(name);
  }

  /** Deleting is idempotent, deleting an absent row changes nothing, and
      names that fold alike delete the same row. */
  lemma TagDeleteIdempotent(store: Store, guild: GuildId, name: string, other: string)
    requires Lower(other) == Lower(name)
    ensures TagDelete(TagDelete(store, guild, name), guild, other) == TagDelete(store, guild, name)
    ensures KeyFor(guild, name) !in store ==> TagDelete(store, guild, name) == store
  {
  }

  /** A later `tagadd` of a name that folds alike replaces the earlier
      content instead of adding a second row. */
  lemma TagAddOverwrites(store: Store, guild: GuildId, name: string, other: string, c1: string, c2: string)
    requires Lower(other) == Lower(name)
    requires |c1| <= MaxContentLength && |c2| <= MaxContentLength
    requires !IsMentionToken(name) && !IsMentionToken(other)
    ensures TagAdd(TagAdd(store, guild, name, c1).store, guild, other, c2).store
            == TagAdd(store, guild, other, c2).store
  {
  }
}

=== FILE: text.dfy ===
/** String helpers shared by the command handlers: ASCII case folding,
    substring search, separator joining, and the user-mention token test
    the handlers apply with the pattern `<@(!?)([0-9]*)>`. */
module Text {

  /* ---------------- case folding ---------------- */

  /** ASCII lower-casing of one character; every other character is kept. */
  function LowerChar(c: char): char
  {
    if 'A' <= c <= 'Z' then (c as int + 32) as char else c
  }

  /** Lower-cases every ASCII letter of `s` (the model of `str.lower`). */
  function Lower(s: string): (r: string)
    ensures |r| == |s|
    ensures forall i :: 0 <= i < |s| ==> r[i] == LowerChar(s[i])
  {
    seq(|s|, i requires 0 <= i < |s| => LowerChar(s[i]))
  }

  predicate IsLower(s: string)
  {
    forall i :: 0 <= i < |s| ==> !('A' <= s[i] <= 'Z')
  }

  /** Folding twice is folding once, and the folded form has no upper-case
      letter left, so two names that fold alike address the same tag. */
  lemma LowerIdempotent(s: string)
    ensures IsLower(Lower(s))
    ensures Lower(Lower(s)) == Lower(s)
  {
  }

  /* ---------------- substrings ---------------- */

  /** `sub in s`, Python's substring test. */
  predicate Contains(s: string, sub: string)
  {
    exists i :: 0 <= i <= |s| && OccursAt(s, sub, i)
  }

  /** `sub` occurs in `s` starting at index `i`. */
  predicate OccursAt(s: string, sub: string, i: nat)
  {
    i + |sub| <= |s| && s[i..i + |sub|] == sub
  }

  /* ---------------- joining ---------------- */

  /** `sep.join(xs)`. */
  function Join(xs: seq<string>, sep: string): string
  {
    if |xs| == 0 then ""
    else if |xs| == 1 then xs[0]
    else xs[0] + sep + Join(xs[1..], sep)
  }

  /** Sum of the lengths of the pieces. */
  function TotalLength(xs: seq<string>): nat
  {
    if |xs| == 0 then 0 else |xs[0]| + TotalLength(xs[1..])
  }

  /** The joined text is exactly the pieces plus one separator between
      each adjacent pair: nothing is truncated or added. */
  lemma {:induction false} JoinLength(xs: seq<string>, sep: string)
    requires |xs| > 0
    ensures |Join(xs, sep)| == TotalLength(xs) + (|xs| - 1) * |sep|
  {
    if |xs| > 1 {
      JoinLength(xs[1..], sep);
    }
  }

  /** Appending a piece appends the separator and that piece. */
  lemma {:induction false} JoinSnoc(xs: seq<string>, x: string, sep: string)
    requires |xs| > 0
    ensures Join(xs + [x], sep) == Join(xs, sep) + sep + x
  {
    if |xs| == 1 {
      assert (xs + [x])[1..] == [x];
    } else {
      assert (xs + [x])[1..] == xs[1..] + [x];
      JoinSnoc(xs[1..], x, sep);
    }
  }

  /* ---------------- mention tokens ---------------- */

  predicate IsDigit(c: char)
  {
    '0' <= c <= '9'
  }

  predicate AllDigits(s: string)
  {
    forall i :: 0 <= i < |s| ==> IsDigit(s[i])
  }

  /** Length of the longest run of digits at the start of `s`
      (what the greedy `[0-9]*` consumes). */
  function DigitRun(s: string): (k: nat)
    ensures k <= |s|
    ensures AllDigits(s[..k])
    ensures k < |s| ==> !IsDigit(s[k])
  {
    if |s| > 0 && IsDigit(s[0]) then
      var k := 1 + DigitRun(s[1..]);
      assert s[..k] == [s[0]] + s[1..][..k - 1];
      k
    else 0
  }

  /** `re.match(r'<@(!?)([0-9]*)>', s)` succeeds: `s` starts with `<@`, an
      optional `!`, a possibly empty run of digits and `>`; anything may
      follow, since the match is anchored only at the start. Backtracking
      cannot help the pattern: neither `!` nor `>` is a digit, so the
      greedy choices made here are the only ones that can succeed. */
  predicate IsMentionToken(s: string)
  {
    && |s| >= 2 && s[0] == '<' && s[1] == '@'
    && var rest := if |s| > 2 && s[2] == '!' then s[3..] else s[2..];
       var k := DigitRun(rest);
       k < |rest| && rest[k] == '>'
  }

  /** The body between `<@` and `>`: an optional `!` and then digits. */
  predicate BangDigits(t: string)
  {
    AllDigits(t) || (|t| > 0 && t[0] == '!' && AllDigits(t[1..]))
  }

  /** Declarative reading of the pattern: some `>` closes a prefix
      `<@` + BangDigits. */
  predicate MentionShaped(s: string)
  {
    && |s| >= 2 && s[..2] == "<@"
    && exists j :: 2 <= j < |s| && s[j] == '>' && BangDigits(s[2..j])
  }

  /** A digit run followed by a non-digit stops exactly there. */
  lemma {:induction false} DigitRunStops(s: string, j: nat)
    requires j < |s| && AllDigits(s[..j]) && !IsDigit(s[j])
    ensures DigitRun(s) == j
  {
    if j > 0 {
      assert s[1..][..j - 1] == s[1..j];
      assert AllDigits(s[1..][..j - 1]);
      DigitRunStops(s[1..], j - 1);
    }
  }

  /** The scanning test and the declarative reading agree on every string. */
  lemma MentionTokenIff(s: string)
    ensures IsMentionToken(s) <==> MentionShaped(s)
  {
    if |s| >= 2 && s[0] == '<' && s[1] == '@' {
      assert s[..2] == "<@";
      var bang := |s| > 2 && s[2] == '!';
      var off := if bang then 3 else 2;
      var rest := s[off..];
      if IsMentionToken(s) {
        var k := DigitRun(rest);
        var j := off + k;
        assert s[j] == '>';
        if bang {
          assert s[2..j][1..] == rest[..k];
        } else {
          assert s[2..j] == rest[..k];
        }
        assert BangDigits(s[2..j]);
      }
      if MentionShaped(s) {
        var j :| 2 <= j < |s| && s[j] == '>' && BangDigits(s[2..j]);
        assert !IsDigit(s[j]);
        if bang {
          // a leading `!` is not a digit, so the body is `!` + digits
          assert j > 2;
          assert s[2..j][1..] == rest[..j - 3];
          DigitRunStops(rest, j - 3);
        } else {
          assert |s[2..j]| > 0 ==> s[2..j][0] == s[2];
          assert AllDigits(s[2..j]);
          assert rest[..j - 2] == s[2..j];
          DigitRunStops(rest, j - 2);
        }
      }
    } else {
      assert !IsMentionToken(s);
      if |s| >= 2 {
        assert s[..2][0] == s[0] && s[..2][1] == s[1];
      }
    }
  }

  /* ---------------- replacement ---------------- */

  /** `s.replace(c, rep)`: every occurrence of the character `c` becomes `rep`. */
  function ReplaceChar(s: string, c: char, rep: string): string
  {
    if |s| == 0 then ""
    else (if s[0] == c then rep else [s[0]]) + ReplaceChar(s[1..], c, rep)
  }

  /** Replacement leaves a string without the character untouched, and
      distributes over concatenation. */
  lemma {:induction false} ReplaceCharAbsent(s: string, c: char, rep: string)
    requires forall i :: 0 <= i < |s| ==> s[i] != c
    ensures ReplaceChar(s, c, rep) == s
  {
    if |s| > 0 {
      ReplaceCharAbsent(s[1..], c, rep);
    }
  }

  lemma {:induction false} ReplaceCharAppend(a: string, b: string, c: char, rep: string)
    ensures ReplaceChar(a + b, c, rep) == ReplaceChar(a, c, rep) + ReplaceChar(b, c, rep)
  {
    if |a| == 0 {
      assert a + b == b;
    } else {
      assert (a + b)[1..] == a[1..] + b;
      ReplaceCharAppend(a[1..], b, c, rep);
    }
  }
}
